=== FILE: README.md ===
# Speech quiz for toddlers — judging and progression model

A Dafny model of the judging and progression logic of a picture quiz for young
children. The quiz reads a question aloud, listens for a spoken answer, judges
it, and gives the child five tries before it reveals the answer and moves on.

The model has four parts, each written as an immutable state record plus pure
transition functions:

- **Game screen** (`GameView`, from `src/components/GameView.js`). The session
  holds `attempts`, `feedback`, `userAnswer` and `listening`. A transcript is
  correct when its lower-cased text contains the lower-cased expected answer.
  A wrong answer counts one attempt; the fifth reveals the answer. Every
  `setTimeout` body is a named `Timer` value (`SuccessReset`, `FailReset`,
  `RetryClear`, `ErrorClear`, `ListenAfterSpeech`). Each transition returns
  the timers it schedules, and `Fire` is the step a timer runs when it
  elapses. Speech output, speech capture, the celebration sound and the
  parent's advance callback are `Effect` values. `Game`, `Dispatch` and
  `Elapse` put the session and its queue of pending timers together as one
  event-driven machine.
- **Application shell** (`App`, from `src/App.js`). This covers the question
  table, the selected level, the bounded question index, "back to levels",
  the view-mode toggle and which screens are rendered. The level lookup
  `questions[selectedLevel]` returns an `Option`.
- **Feedback area** (`FeedbackArea`, from `src/components/FeedbackArea.js`).
  It classes the feedback text as success, listening or warning, checking in
  priority order, and decides when the feedback and "I heard" lines appear.
- **Progress strip** (`MileView`, from `src/components/MileView.js`). It shows
  one `Q1`..`Qn` indicator per question, each completed, current or pending.

Support modules: `Strings` models `toLowerCase` (ASCII letters only) and
`includes`, where the empty string is contained in every string. `Decimal`
renders a number as a template literal does, and has a parser that inverts
it. `Options` holds the `Option` type.

Assumptions: lower-casing changes only the ASCII letters `A`–`Z`. Template
literals print a natural number in its shortest decimal form.

Facts about the code that the model keeps as they are:

- The attempt limit is 5 (src/components/GameView.js:69, 85 and 195).
- A recognition error does not change `attempts`. It shows an apology, and a
  timer clears it two seconds later (src/components/GameView.js:116-128).
- Every error callback sets the apology and schedules its own clear; nothing
  stops a second error while the first clear is pending
  (src/components/GameView.js:116-128).
- No `setTimeout` is ever cancelled, not even by the unmount cleanup
  (src/components/GameView.js:31, 59-96, 125-127 and 154-169).
- With auto-listen on, nothing restarts capture after a wrong answer with
  attempts left: the retry clear only empties the feedback and heard answer,
  the effect at src/components/GameView.js:147-151 is empty, and the manual
  button is hidden (src/components/GameView.js:93-96 and 197). Capture starts
  again only when the question is read out again.
- No code resets the session when the question index changes. Only the two
  reset timers reset it, and they are also the ones that call the advance
  callback (src/components/GameView.js:59-64 and 78-83).

## Model

| member | source | states |
|---|---|---|
| `Strings.Lower` | src/components/GameView.js:45-47 | Lower-casing keeps the length, lowers each ASCII capital, and leaves no upper-case letter. |
| `Strings.ContainsIffOccurs` | src/components/GameView.js:47 | `includes` is true exactly when the pattern occurs at some position, in both directions. |
| `Strings.ContainsMiddle` | src/components/GameView.js:47 | Any text around a pattern still contains it. |
| `Strings.LowerConcat` | src/components/GameView.js:45-47 | Lower-casing a concatenation gives the concatenation of the lower-cased parts. |
| `Decimal.ToDecimal` | src/components/GameView.js:85 | A printed number is non-empty and all digits, and it starts with `0` only for zero. |
| `Decimal.DecimalRoundTrip` | src/components/MileView.js:21 | Reading a printed number back gives the number again. |
| `FeedbackArea.Classify` | src/components/FeedbackArea.js:6-10 | "Hurray" or "Great" means success even if "listening" also appears. Without those, "listening" means listening. Anything else is a warning, so each text gets exactly one class. |
| `FeedbackArea.QuotedAnswerHidesHeard` | src/components/FeedbackArea.js:16-18 | When the feedback quotes the heard answer, the "I heard" line is hidden. |
| `MileView.Indicators` | src/components/MileView.js:10-21 | There is one indicator per question, in order. Indicator `i` is labelled `Q{i+1}` and is completed below the current index, current at it, and pending above it. |
| `MileView.ExactlyOneCurrent` | src/components/MileView.js:10-19 | One indicator is current when `0 <= current < n`; otherwise none is. |
| `MileView.CompletedCount` | src/components/MileView.js:13-14 | For a non-negative index, the number of completed indicators is `min(current, n)`. |
| `MileView.StatusOrdered` | src/components/MileView.js:13-19 | Completed indicators form a prefix and pending indicators a suffix. |
| `MileView.LabelsInOrder` | src/components/MileView.js:10-21 | The labels run `Q1`..`Qn` in order, and no label repeats. |
| `GameView.Judge` | src/components/GameView.js:44-99 | A correct answer celebrates, keeps the attempt count, shows a success-styled `Hurray!` message and schedules the success reset. A wrong answer adds exactly one attempt. At 5 or more attempts the feedback contains the lower-cased answer and the fail reset is scheduled. Below 5 the message gives `5 - attempts` left, always 1 to 4, and the retry clear is scheduled. The feedback is never empty, quotes the transcript and is the text spoken. Judging never advances directly. |
| `GameView.SuccessMessageFacts` | src/components/GameView.js:51 | The success message quotes the transcript and is styled as success. |
| `GameView.RevealMessageFacts` | src/components/GameView.js:70 | The reveal message quotes both the transcript and the lower-cased answer. |
| `GameView.Fire` | src/components/GameView.js:31-127 | Both reset timers advance once and clear attempts, feedback and heard answer. The retry clear empties only feedback and heard answer. The error clear empties only feedback. The auto-listen timer turns the microphone on with a listening-styled prompt and requests recognition. No timer schedules another. |
| `GameView.StartListening` | src/components/GameView.js:102-109 | Starting capture turns the microphone on and shows a listening-styled prompt. Attempts and the heard answer are unchanged. |
| `GameView.ListeningPromptIsListening` | src/components/GameView.js:104 | The "I'm listening" prompt is classed listening. |
| `GameView.OnResult` | src/components/GameView.js:110-115 | A transcript is stored as the heard answer. Attempts change only when the answer is wrong. Capture ends, the feedback shows, and the "I heard" line stays hidden. |
| `GameView.OnError` | src/components/GameView.js:116-128 | A recognition error ends capture. The feedback becomes the "couldn't hear you" apology, which is non-empty and warning-styled, and that same text is spoken. Attempts are unchanged, and one clear timer is scheduled. |
| `GameView.CouldNotHearIsWarning` | src/components/GameView.js:118 | The apology text is classed warning. |
| `GameView.EndAfterResultIsNoop` | src/components/GameView.js:110-131 | The end-of-capture callback that follows a result or an error finds the microphone already off and changes nothing. |
| `GameView.AutoListenStarts` | src/components/GameView.js:28-33 | Once the question has been read out with auto-listen on, the one scheduled timer starts capture: microphone on, listening-styled prompt, recognition requested, attempts kept. With auto-listen off nothing is scheduled. |
| `GameView.QuestionSpokenThenCapture` | src/components/GameView.js:28-33 | On the running screen, the end of the question queues the capture timer behind those pending; when it elapses capture starts and the others stay queued. |
| `GameView.ListenButtonFollowsCapture` | src/components/GameView.js:197-204 | The manual listen button is hidden while capturing. When capture ends it is shown exactly when auto-listen is off. |
| `GameView.Dispatch` | src/components/GameView.js:102-138 | No event removes a pending timer or advances directly. Only a heard transcript can change attempts. "Repeat" changes neither state nor timers. |
| `GameView.Elapse` | src/components/GameView.js:31-127 | A fired timer leaves the queue, and the timers its step schedules join it. |
| `GameView.Trace` | src/components/GameView.js:44-96 | A run of `n` rounds, each a transcript judged against the expected answer of the question shown at that time and followed by its own timer, visits `2n + 1` states, starting at the given one. |
| `GameView.RoundBounded` | src/components/GameView.js:66-83 | Starting below the limit, one judged answer reaches at most 5 attempts, and its timer brings the count back below 5. |
| `GameView.TraceBounded` | src/components/GameView.js:66-83 | Through any run of such rounds, whatever answer each is judged against, attempts never exceed 5 and end below 5. |
| `GameView.AttemptsStayWithinLimit` | src/components/GameView.js:15-83 | From a freshly mounted screen, attempts stay within 0..5 through any run of rounds, including rounds on later questions with other answers. |
| `GameView.RoundOutcome` | src/components/GameView.js:44-99 | A round advances exactly when the answer is right or the fifth attempt fails, and then everything is reset. Otherwise attempts grow by one and the feedback and heard answer are cleared. |
| `GameView.ErrorRoundKeepsAttempts` | src/components/GameView.js:116-128 | An error followed by its clear keeps the attempts and the heard answer and never advances. |
| `GameView.RepeatIsInert` | src/components/GameView.js:22-41 | Repeating the question (which only reads it out again, src/components/GameView.js:136-138) any number of times leaves session and timers unchanged. |
| `GameView.ExtraWordsStillCorrect` | src/components/GameView.js:45-47 | A transcript that says the answer in any letter case (it lower-cases to the lower-cased answer), with any words before and after it, is correct. |
| `GameView.RetryWaitsForButton` | src/components/GameView.js:93-96 | After a wrong answer with attempts left, the retry clear empties the feedback, schedules nothing and leaves the microphone off. The manual button is hidden with auto-listen on and offered with it off. |
| `GameView.JudgeIgnoresCase` | src/components/GameView.js:45-47 | Lower-casing either side beforehand does not change the verdict. |
| `GameView.JudgeIffOccurs` | src/components/GameView.js:45-47 | An answer is correct exactly when the lower-cased answer occurs at some position of the lower-cased transcript. |
| `GameView.GreatInWrongAnswerStyledSuccess` | src/components/FeedbackArea.js:7 | A wrong transcript containing "Great" makes the try-again message success-styled, because styling looks only at words. |
| `GameView.AnswerBeforeRevealResetExceedsLimit` | src/components/GameView.js:197-204 | With auto-listen off, the button stays available while the reveal's reset is pending. A second wrong answer then takes attempts to 6, so the 0..5 bound depends on the reset firing first. |
| `App.LevelQuestions` | src/App.js:79 | The lookup gives a list exactly when the selected level is a key of the table. A null level gives no list. |
| `App.TableKeys` | src/App.js:16-64 | The table has the keys `beginner`, `intermediate` and `expert`, with three questions each. |
| `App.MoveToNext` | src/App.js:78-82 | The index grows by one exactly when a list exists and the index is below its last position. Otherwise nothing changes, and only the index can change. |
| `App.AdvanceTimesExact` | src/App.js:78-82 | On a non-empty list, `k` advances from index `c` land on `min(c + k, n - 1)` and change nothing else. |
| `App.IndexStaysInRange` | src/App.js:78-82 | Starting at 0, the index stays within `[0, n - 1]` however often the game advances. |
| `App.NoListNoMove` | src/App.js:79 | Without a question list, any number of advances leaves the state unchanged. |
| `App.BackToLevels` | src/App.js:67-70 | The level is cleared and the index set to 0. View mode and auto-listen are kept, and only the level list is shown. |
| `App.ToggleViewMode` | src/App.js:73-75 | The view mode always changes and nothing else does. |
| `App.ToggleTwiceRestores` | src/App.js:73-75 | Toggling twice restores the original state. |
| `App.ScreensExclusive` | src/App.js:100-122 | The level list shows exactly when no level name is chosen and the game screen exactly when one is. The mile view appears only beside the game screen. |
| `App.LevelNameMisses` | src/App.js:17-47 | None of the names the level buttons store is a key of the table. |
| `App.LevelButtonBreaksGameScreen` | src/App.js:79-121 | After any level button the game screen (and in mile view the progress strip) is mounted with no question list, so it cannot render. Were the advance callback reached, it would leave the state unchanged. |
| `App.LevelQuestionsFolded` | src/App.js:79 | The corrected lookup lower-cases the name first, and gives a list exactly when that lower-cased name is a key. |
| `App.LevelNameLowersToKey` | src/components/LevelSelection.js:7-19 | Every level button name lower-cases to a table key. |
| `App.FoldedLookupFindsEveryLevel` | src/components/LevelSelection.js:7-19 | With the corrected lookup, every level button finds a list of three questions. |
| `App.FoldedGameScreenRenders` | src/App.js:78-121 | With the corrected lookup, choosing a level and advancing `k` times reaches question `min(k, 2)`, and the game screen and progress strip render at every question reached. |

## Left out

- Speech output, speech capture, the celebration sound and voice selection (`src/utils/speechHelpers.js`) live in the browser. They appear only as `Speak`, `Recognize` and `Celebrate` effects, and their callbacks are events.
- Timer delays (500, 2000, 3000 and 4000 ms) are not modelled. A timer fires when `Elapse` or `Fire` is applied, in any order chosen.
- Stale closures from React hooks are not modelled. For example, the question-reading callback keeps an old `startListening` and so an old attempt count. The model always judges against the current session.
- The empty effect at `src/components/GameView.js:147-151` does nothing and is not modelled.
- Unmount cleanup and the cancelling of speech (`src/components/GameView.js:154-169`) release browser resources and are not modelled. The model does not claim that pending timers are invalidated, because the source never clears them.
- Presentation-only components are not modelled: the question display, the level buttons (only the names they store are used) and the view toggle, including its auto-listen on/off button.
- Rendering is modelled only as far as the game screen and the progress strip need a defined question list (`App.GameScreenRenders`, `App.MileStripRenders`); the markup itself is not modelled.
- Unicode case folding is not modelled. Lower-casing covers ASCII letters only.
- GameView.AttemptsStayWithinLimit: the 0..5 bound is proved for runs where each answer's own timer fires before the next answer; each round may be judged against a different expected answer. `GameView.AnswerBeforeRevealResetExceedsLimit` shows it fails otherwise.

## Findings

| source | as written | input that shows it | evidently intended | confidence | as-written member | corrected member |
|---|---|---|---|---|---|---|
| src/App.js:116 | `questions[selectedLevel]` uses the name the level button stores (src/components/LevelSelection.js:7-19). That name is capitalised (`"Beginner"`, `"Intermediate"`, `"Expert"`), but the table keys are lower-case, so the lookup is undefined. The game screen is mounted with that undefined list, and its first render reads `questions.length` (src/components/GameView.js:177), which throws; in mile view the progress strip's `questions.map` (src/components/MileView.js:10) throws too. No question is ever shown. | Press the "Beginner" button. | The level name is matched against the lower-case keys, so each level finds its three questions, the screen renders, and advancing walks through them. | not executed; high | `App.LevelButtonBreaksGameScreen` | `App.FoldedGameScreenRenders` |

=== FILE: app.dfy ===
/**
  The application shell: the question table, the selected level, the current
  question index and its bounded progression, "back to levels", the view-mode
  toggle, and which screens are rendered.
 */
module App {

  import opened Options
  import opened Strings
  import opened GameView

  datatype ViewMode = Standard | Mile

  datatype AppState = AppState(selectedLevel: Option<string>, viewMode: ViewMode, currentQuestion: nat, autoListen: bool)

  /** The state the application starts in: no level, standard view, first question, auto-listen on. */
  const Start := AppState(None, Standard, 0, true)

  /** The built-in questions, keyed by lower-case level name. */
  function QuestionTable(): map<string, seq<Question>>
  {
    map[
      "beginner" := [
        Question("What animal is this?", "cat", "./assets/beginner/elephant.jpg"),
        Question("What color is this?", "red", "/api/placeholder/300/200"),
        Question("What shape is this?", "circle", "/api/placeholder/300/200")
      ],
      "intermediate" := [
        Question("What are these animals called?", "elephants", "/api/placeholder/300/200"),
        Question("What season is shown?", "winter", "/api/placeholder/300/200"),
        Question("How many birds are in this picture?", "three", "/api/placeholder/300/200")
      ],
      "expert" := [
        Question("What is this animal's habitat?", "ocean", "/api/placeholder/300/200"),
        Question("What is the capital city shown?", "paris", "/api/placeholder/300/200"),
        Question("What planet is this?", "saturn", "/api/placeholder/300/200")
      ]
    ]
  }

  /** The level names the level-selection buttons store. */
  predicate IsLevelName(name: string)
  {
    name == "Beginner" || name == "Intermediate" || name == "Expert"
  }

  /** `questions[selectedLevel]`: a missing key, and the null level, give undefined. */
  function LevelQuestions(level: Option<string>): (r: Option<seq<Question>>)
    ensures r.Some? <==> level.Some? && level.value in QuestionTable()
    ensures r.Some? ==> r.value == QuestionTable()[level.value]
  {
    match level
    case None => None
    case Some(name) => if name in QuestionTable() then Some(QuestionTable()[name]) else None
  }

  /**
    Move to the next question of list `qs`: the index grows by one exactly when
    it is below the last index; an undefined list (whose length minus one is
    NaN in the source) never lets it move. Nothing but the index changes.
   */
  function MoveToNext(app: AppState, qs: Option<seq<Question>>): (r: AppState)
    ensures r.(currentQuestion := app.currentQuestion) == app
    ensures r.currentQuestion == app.currentQuestion + 1 <==> qs.Some? && app.currentQuestion + 1 < |qs.value|
    ensures r.currentQuestion != app.currentQuestion + 1 ==> r == app
  {
    if qs.Some? && app.currentQuestion < |qs.value| - 1 then app.(currentQuestion := app.currentQuestion + 1)
    else app
  }

  /** The advance callback handed to the game screen, looking the list up as written. */
  function AdvanceAsWritten(app: AppState): AppState
  {
    MoveToNext(app, LevelQuestions(app.selectedLevel))
  }

  /** A level button stores its name. */
  function SelectLevel(app: AppState, name: string): AppState
  {
    app.(selectedLevel := Some(name))
  }

  /** Back to the level list: no level and the first question; view mode and auto-listen are kept. */
  function BackToLevels(app: AppState): (r: AppState)
    ensures r.selectedLevel == None && r.currentQuestion == 0
    ensures r.viewMode == app.viewMode && r.autoListen == app.autoListen
    ensures ShowsLevelSelection(r) && !ShowsGameView(r) && !ShowsMileView(r)
  {
    app.(selectedLevel := None, currentQuestion := 0)
  }

  /** Switch between the standard and the mile view; nothing else changes. */
  function ToggleViewMode(app: AppState): (r: AppState)
    ensures r.viewMode != app.viewMode
    ensures r.(viewMode := app.viewMode) == app
  {
    app.(viewMode := if app.viewMode == Standard then Mile else Standard)
  }

  lemma ToggleTwiceRestores(app: AppState)
    ensures ToggleViewMode(ToggleViewMode(app)) == app
  {
  }

  /** A level is chosen when the selected level is a truthy value, i.e. a non-empty name. */
  predicate LevelChosen(app: AppState)
  {
    app.selectedLevel.Some? && app.selectedLevel.value != ""
  }

  predicate ShowsLevelSelection(app: AppState)
  {
    !LevelChosen(app)
  }

  predicate ShowsGameView(app: AppState)
  {
    LevelChosen(app)
  }

  predicate ShowsMileView(app: AppState)
  {
    app.viewMode == Mile && LevelChosen(app)
  }

  /** Exactly one of the level list and the game screen is shown; the mile view only beside the game. */
  lemma ScreensExclusive(app: AppState)
    ensures ShowsLevelSelection(app) <==> !ShowsGameView(app)
    ensures ShowsGameView(app) <==> app.selectedLevel.Some? && app.selectedLevel.value != ""
    ensures ShowsMileView(app) ==> ShowsGameView(app)
  {
  }

  /** `k` calls of the advance callback against a fixed list. */
  function AdvanceTimes(app: AppState, qs: Option<seq<Question>>, k: nat): AppState
    decreases k
  {
    if k == 0 then app else MoveToNext(AdvanceTimes(app, qs, k - 1), qs)
  }

  /** Against a non-empty list, `k` advances land on `min(start + k, last)`. */
  lemma {:induction false} AdvanceTimesExact(app: AppState, qs: seq<Question>, k: nat)
    requires 0 < |qs| && app.currentQuestion < |qs|
    ensures AdvanceTimes(app, Some(qs), k).currentQuestion ==
            if app.currentQuestion + k < |qs| then app.currentQuestion + k else |qs| - 1
    ensures AdvanceTimes(app, Some(qs), k) == app.(currentQuestion := AdvanceTimes(app, Some(qs), k).currentQuestion)
    decreases k
  {
    if k > 0 {
      AdvanceTimesExact(app, qs, k - 1);
    }
  }

  /** From the first question, the index stays within the list however often the game advances. */
  lemma IndexStaysInRange(app: AppState, qs: seq<Question>, k: nat)
    requires 0 < |qs| && app.currentQuestion == 0
    ensures 0 <= AdvanceTimes(app, Some(qs), k).currentQuestion <= |qs| - 1
  {
    AdvanceTimesExact(app, qs, k);
  }

  /** Without a question list the advance callback never moves. */
  lemma {:induction false} NoListNoMove(app: AppState, k: nat)
    ensures AdvanceTimes(app, None, k) == app
    decreases k
  {
    if k > 0 {
      NoListNoMove(app, k - 1);
    }
  }

  // ----- The level-name mismatch -----

  lemma LevelNameMisses(name: string)
    requires IsLevelName(name)
    ensures LevelQuestions(Some(name)) == None
  {
  }

  /**
    The game screen's first render reads the length of its question list and
    the entry at the current index, so it renders only when the list is
    defined and has that entry; otherwise the render throws.
   */
  predicate GameScreenRenders(app: AppState, qs: Option<seq<Question>>)
  {
    qs.Some? && app.currentQuestion < |qs.value|
  }

  /** The progress strip maps over its question list, so it renders only when the list is defined. */
  predicate MileStripRenders(qs: Option<seq<Question>>)
  {
    qs.Some?
  }

  /**
    As written: after any level button the game screen is mounted (and the
    progress strip too in mile view), but the list handed to them is undefined,
    so neither renders and no question is ever asked; and were the advance
    callback reached, it would leave the state as it is.
   */
  lemma LevelButtonBreaksGameScreen(app: AppState, name: string)
    requires IsLevelName(name)
    ensures var a := SelectLevel(app, name);
            && ShowsGameView(a)
            && !GameScreenRenders(a, LevelQuestions(a.selectedLevel))
            && (app.viewMode == Mile ==> ShowsMileView(a) && !MileStripRenders(LevelQuestions(a.selectedLevel)))
            && AdvanceAsWritten(a) == a
  {
    LevelNameMisses(name);
  }

  /** Corrected lookup: the stored level name is lower-cased before it is used as a key. */
  function LevelQuestionsFolded(level: Option<string>): (r: Option<seq<Question>>)
    ensures r.Some? <==> level.Some? && Lower(level.value) in QuestionTable()
    ensures r.Some? ==> r.value == QuestionTable()[Lower(level.value)]
  {
    match level
    case None => None
    case Some(name) => LevelQuestions(Some(Lower(name)))
  }

  /** The advance callback with the corrected lookup. */
  function AdvanceFolded(app: AppState): AppState
  {
    MoveToNext(app, LevelQuestionsFolded(app.selectedLevel))
  }

  /** With the corrected lookup every level button finds its three questions. */
  lemma FoldedLookupFindsEveryLevel(name: string)
    requires IsLevelName(name)
    ensures LevelQuestionsFolded(Some(name)).Some?
    ensures |LevelQuestionsFolded(Some(name)).value| == 3
  {
    LevelNameLowersToKey(name);
    TableKeys(Lower(name));
  }

  lemma LevelNameLowersToKey(name: string)
    requires IsLevelName(name)
    ensures Lower(name) == "beginner" || Lower(name) == "intermediate" || Lower(name) == "expert"
  {
    if name == "Beginner" {
      LowerBeginner();
    } else if name == "Intermediate" {
      LowerIntermediate();
    } else {
      LowerExpert();
    }
  }

  lemma LowerBeginner()
    ensures Lower("Beginner") == "beginner"
  {
  }

  lemma LowerIntermediate()
    ensures Lower("Intermediate") == "intermediate"
  {
  }

  lemma LowerExpert()
    ensures Lower("Expert") == "expert"
  {
  }

  lemma TableKeys(key: string)
    requires key == "beginner" || key == "intermediate" || key == "expert"
    ensures key in QuestionTable() && |QuestionTable()[key]| == 3
  {
  }

  /** `k` calls of the corrected advance callback. */
  function AdvanceFoldedTimes(app: AppState, k: nat): (r: AppState)
    ensures r.selectedLevel == app.selectedLevel
    decreases k
  {
    if k == 0 then app else AdvanceFolded(AdvanceFoldedTimes(app, k - 1))
  }

  lemma {:induction false} FoldedTimesIsFixedList(app: AppState, k: nat)
    ensures AdvanceFoldedTimes(app, k) == AdvanceTimes(app, LevelQuestionsFolded(app.selectedLevel), k)
    decreases k
  {
    if k > 0 {
      FoldedTimesIsFixedList(app, k - 1);
    }
  }

  /**
    Corrected: after choosing a level, the game screen and the progress strip
    render at every question reached, and advancing walks through the level's
    three questions and stops on the last one.
   */
  lemma FoldedGameScreenRenders(name: string, k: nat)
    requires IsLevelName(name)
    ensures var a := AdvanceFoldedTimes(SelectLevel(Start, name), k);
            && ShowsGameView(a)
            && GameScreenRenders(a, LevelQuestionsFolded(a.selectedLevel))
            && MileStripRenders(LevelQuestionsFolded(a.selectedLevel))
            && a.currentQuestion == if k < 3 then k else 2
  {
    var app := SelectLevel(Start, name);
    FoldedLookupFindsEveryLevel(name);
    FoldedTimesIsFixedList(app, k);
    AdvanceTimesExact(app, LevelQuestionsFolded(Some(name)).value, k);
  }
}

=== FILE: decimal.dfy ===
/**
  Decimal rendering of a non-negative number, as JavaScript template literals
  print an integer (`${5 - newAttempts}`, `Q{index + 1}`), with the parser
  that inverts it.
 */
module Decimal {

  predicate IsDigit(c: char)
  {
    '0' <= c <= '9'
  }

  predicate AllDigits(s: string)
  {
    forall i :: 0 <= i < |s| ==> IsDigit(s[i])
  }

  function DigitChar(d: nat): (c: char)
    requires d < 10
    ensures IsDigit(c)
  {
    ('0' as int + d) as char
  }

  function DigitValue(c: char): nat
    requires IsDigit(c)
  {
    c as int - '0' as int
  }

  /** The shortest decimal numeral of `n`: digits only, no leading zero. */
  function ToDecimal(n: nat): (s: string)
    ensures 1 <= |s|
    ensures AllDigits(s)
    ensures s[0] == '0' <==> n == 0
    decreases n
  {
    if n < 10 then [DigitChar(n)] else ToDecimal(n / 10) + [DigitChar(n % 10)]
  }

  /** Reads a digit string back as a number. */
  function FromDecimal(s: string): nat
    requires AllDigits(s)
    decreases |s|
  {
    if s == [] then 0 else 10 * FromDecimal(s[..|s| - 1]) + DigitValue(s[|s| - 1])
  }

  lemma {:induction false} DecimalRoundTrip(n: nat)
    ensures FromDecimal(ToDecimal(n)) == n
    decreases n
  {
    var s := ToDecimal(n);
    if n < 10 {
      assert s[..|s| - 1] == [];
    } else {
      DecimalRoundTrip(n / 10);
      assert s[..|s| - 1] == ToDecimal(n / 10);
    }
  }

  /** Different numbers print differently. */
  lemma ToDecimalInjective(m: nat, n: nat)
    requires m != n
    ensures ToDecimal(m) != ToDecimal(n)
  {
    DecimalRoundTrip(m);
    DecimalRoundTrip(n);
  }
}

=== FILE: feedback_area.dfy ===
/**
  The feedback area under the question: which style the feedback text gets
  and which of its two paragraphs are rendered.
 */
module FeedbackArea {

  import opened Strings

  /** The three CSS classes the feedback paragraph can carry. */
  datatype FeedbackClass = Success | Listening | Warning

  /**
    Classification by content, checked in priority order: a success word wins
    over "listening", and everything else is a warning.
   */
  function Classify(feedback: string): (r: FeedbackClass)
    ensures r == Success <==> Contains(feedback, "Hurray") || Contains(feedback, "Great")
    ensures r == Listening <==>
      !Contains(feedback, "Hurray") && !Contains(feedback, "Great") && Contains(feedback, "listening")
    ensures r == Warning <==>
      !Contains(feedback, "Hurray") && !Contains(feedback, "Great") && !Contains(feedback, "listening")
  {
    if Contains(feedback, "Hurray") || Contains(feedback, "Great") then Success
    else if Contains(feedback, "listening") then Listening
    else Warning
  }

  /** The feedback paragraph exists only for a non-empty (truthy) feedback string. */
  predicate ShowsFeedback(feedback: string)
  {
    feedback != ""
  }

  /** The `I heard: "..."` line: an answer was heard, capture has ended and the feedback does not already quote it. */
  predicate ShowsHeard(feedback: string, userAnswer: string, listening: bool)
  {
    userAnswer != "" && !listening && !Contains(feedback, userAnswer)
  }

  /** A feedback text that quotes the answer never gets the extra "I heard" line. */
  lemma QuotedAnswerHidesHeard(x: string, userAnswer: string, y: string, listening: bool)
    ensures !ShowsHeard(x + userAnswer + y, userAnswer, listening)
  {
    ContainsMiddle(x, userAnswer, y);
  }
}

=== FILE: game_view.dfy ===
/**
  The question/answer cycle of one game screen: the session state, the judging
  of a heard transcript, the bounded retry counter, and the deferred steps that
  the screen schedules with timers.

  A timer is not modelled as time: every transition returns the timers it
  schedules as named `Timer` values, and `Fire` is the transition a timer runs
  when it elapses. Speech output, speech capture and the celebration sound are
  effects a transition emits; their completion callbacks are events.
 */
module GameView {

  import opened Strings
  import opened Decimal
  import opened FeedbackArea

  /** Wrong answers allowed per question before the answer is revealed. */
  const MaxAttempts: nat := 5

  datatype Question = Question(prompt: string, answer: string, image: string)

  /** The screen's four pieces of state. */
  datatype Session = Session(attempts: nat, feedback: string, userAnswer: string, listening: bool)

  /** The state the screen is mounted with. */
  const Fresh := Session(0, "", "", false)

  /** The deferred steps the screen schedules. */
  datatype Timer =
    | SuccessReset       // after a correct answer
    | FailReset          // after the last allowed wrong answer
    | RetryClear         // after a wrong answer with attempts left
    | ErrorClear         // after a recognition error
    | ListenAfterSpeech  // after the question was read out, with auto-listen on

  datatype Effect =
    | Speak(text: string, pitch: real, rate: real)
    | Celebrate
    | Recognize(lang: string)
    | Advance            // the parent's move-to-next-question callback

  /** What one transition produces: the new state, its effects in order, and the timers it schedules. */
  datatype Step = Step(session: Session, effects: seq<Effect>, timers: seq<Timer>)

  // The messages are written as concatenations split at their styling keywords,
  // so that the proofs about their class can name the keyword as a piece.
  const ListeningPrompt := "I'm " + "listening" + "... Please say your answer!"
  const CouldNotHear := "Sorry, I couldn't hear you. " + "Try again."

  function SuccessMessage(input: string): string
  {
    "Hurray" + "! \"" + input + "\" is correct!"
  }

  function RevealMessage(input: string, correct: string): string
  {
    "I heard \"" + input + "\". Let's try the next question. The correct answer was \"" + correct + "\"."
  }

  function RetryMessage(input: string, left: nat): string
  {
    "I heard \"" + input + "\". Try again! You have " + ToDecimal(left) + " attempts left."
  }

  /** The answer check: the lower-cased transcript includes the lower-cased expected answer. */
  predicate IsCorrect(input: string, answer: string)
  {
    Contains(Lower(input), Lower(answer))
  }

  /**
    Judging one transcript. A correct answer celebrates and schedules the
    success reset without touching the counter; a wrong one counts one attempt
    and either reveals the lower-cased answer (limit reached) or reports how
    many attempts are left. The displayed feedback is the text spoken, and it
    quotes the transcript. Advancing is never immediate.
   */
  function Judge(s: Session, answer: string, input: string): (r: Step)
    ensures r.session.userAnswer == s.userAnswer && r.session.listening == s.listening
    ensures |r.timers| == 1 && Advance !in r.effects
    ensures |r.effects| >= 1 && r.effects[|r.effects| - 1].Speak? && r.effects[|r.effects| - 1].text == r.session.feedback
    ensures ShowsFeedback(r.session.feedback) && Contains(r.session.feedback, input)
    ensures Celebrate in r.effects <==> IsCorrect(input, answer)
    ensures IsCorrect(input, answer) ==>
      && r.session.attempts == s.attempts
      && r.session.feedback == SuccessMessage(input)
      && Classify(r.session.feedback) == Success
      && r.timers == [SuccessReset]
    ensures !IsCorrect(input, answer) ==> r.session.attempts == s.attempts + 1
    ensures !IsCorrect(input, answer) && r.session.attempts >= MaxAttempts ==>
      && r.timers == [FailReset]
      && Contains(r.session.feedback, Lower(answer))
    ensures !IsCorrect(input, answer) && r.session.attempts < MaxAttempts ==>
      && r.timers == [RetryClear]
      && 1 <= MaxAttempts - r.session.attempts <= 4
      && r.session.feedback == RetryMessage(input, MaxAttempts - r.session.attempts)
  {
    var correct := Lower(answer);
    if Contains(Lower(input), correct) then
      var msg := SuccessMessage(input);
      SuccessMessageFacts(input);
      Step(s.(feedback := msg), [Celebrate, Speak(msg, 1.4, 1.1)], [SuccessReset])
    else
      var n := s.attempts + 1;
      if n >= MaxAttempts then
        var msg := RevealMessage(input, correct);
        RevealMessageFacts(input, correct);
        Step(s.(attempts := n, feedback := msg), [Speak(msg, 0.9, 0.9)], [FailReset])
      else
        var msg := RetryMessage(input, MaxAttempts - n);
        RetryMessageFacts(input, MaxAttempts - n);
        Step(s.(attempts := n, feedback := msg), [Speak(msg, 0.9, 0.9)], [RetryClear])
  }

  lemma SuccessMessageFacts(input: string)
    ensures Contains(SuccessMessage(input), input)
    ensures Classify(SuccessMessage(input)) == Success
  {
    var tail := "\" is correct!";
    ContainsMiddle("Hurray" + "! \"", input, tail);
    assert SuccessMessage(input) == "Hurray" + ("! \"" + input + tail);
    ContainsPrefix("Hurray", "! \"" + input + tail);
  }

  lemma RevealMessageFacts(input: string, correct: string)
    ensures Contains(RevealMessage(input, correct), input)
    ensures Contains(RevealMessage(input, correct), correct)
  {
    var mid := "\". Let's try the next question. The correct answer was \"";
    var m := RevealMessage(input, correct);
    assert m == "I heard \"" + input + (mid + correct + "\".");
    ContainsMiddle("I heard \"", input, mid + correct + "\".");
    assert m == ("I heard \"" + input + mid) + correct + "\".";
    ContainsMiddle("I heard \"" + input + mid, correct, "\".");
  }

  lemma RetryMessageFacts(input: string, left: nat)
    ensures Contains(RetryMessage(input, left), input)
  {
    var tail := "\". Try again! You have " + ToDecimal(left) + " attempts left.";
    assert RetryMessage(input, left) == "I heard \"" + input + tail;
    ContainsMiddle("I heard \"", input, tail);
  }

  /** The timer's own step: the two resets advance and clear everything; the clears keep the counter. */
  function Fire(s: Session, t: Timer): (r: Step)
    ensures r.timers == []
    ensures Advance in r.effects <==> t == SuccessReset || t == FailReset
    ensures t == SuccessReset || t == FailReset ==> r.effects == [Advance] && r.session == Fresh.(listening := s.listening)
    ensures t == RetryClear ==> r.session == s.(feedback := "", userAnswer := "")
    ensures t == ErrorClear ==> r.session == s.(feedback := "")
    ensures t != ListenAfterSpeech ==> !ShowsFeedback(r.session.feedback)
    ensures t == ListenAfterSpeech ==>
      && r.session.listening && Classify(r.session.feedback) == Listening
      && r.effects == [Recognize("en-US")]
    ensures r.session.attempts == 0 || r.session.attempts == s.attempts
  {
    match t
    case SuccessReset => Step(s.(attempts := 0, feedback := "", userAnswer := ""), [Advance], [])
    case FailReset => Step(s.(attempts := 0, feedback := "", userAnswer := ""), [Advance], [])
    case RetryClear => Step(s.(feedback := "", userAnswer := ""), [], [])
    case ErrorClear => Step(s.(feedback := ""), [], [])
    case ListenAfterSpeech => StartListening(s)
  }

  /** Starting capture: the microphone is on, the prompt is styled as listening, and nothing else changes. */
  function StartListening(s: Session): (r: Step)
    ensures r.session == s.(listening := true, feedback := r.session.feedback)
    ensures Classify(r.session.feedback) == Listening
    ensures r.effects == [Recognize("en-US")] && r.timers == []
  {
    ListeningPromptIsListening();
    Step(s.(listening := true, feedback := ListeningPrompt), [Recognize("en-US")], [])
  }

  lemma ListeningPromptIsListening()
    ensures Classify(ListeningPrompt) == Listening
  {
    ListeningPromptWords();
    ContainsMiddle("I'm ", "listening", "... Please say your answer!");
  }

  lemma ListeningPromptWords()
    ensures !Contains(ListeningPrompt, "Hurray") && !Contains(ListeningPrompt, "Great")
  {
    MissingCharNotContained(ListeningPrompt, "Hurray", 0);
    MissingCharNotContained(ListeningPrompt, "Great", 0);
  }

  /**
    A transcript arrives: it is stored as the heard answer, judged, and capture
    ends. The feedback then quotes the answer, so the separate "I heard" line
    stays hidden.
   */
  function OnResult(s: Session, answer: string, transcript: string): (r: Step)
    ensures r.session.userAnswer == transcript && !r.session.listening
    ensures r.session.attempts == if IsCorrect(transcript, answer) then s.attempts else s.attempts + 1
    ensures ShowsFeedback(r.session.feedback)
    ensures !ShowsHeard(r.session.feedback, r.session.userAnswer, r.session.listening)
    ensures |r.timers| == 1 && Advance !in r.effects
  {
    var j := Judge(s.(userAnswer := transcript), answer, transcript);
    Step(j.session.(listening := false), j.effects, j.timers)
  }

  /** A recognition error: capture ends with an apology; the attempt is not counted. */
  function OnError(s: Session): (r: Step)
    ensures r.session == s.(listening := false, feedback := r.session.feedback)
    ensures r.session.feedback == CouldNotHear && ShowsFeedback(r.session.feedback)
    ensures Classify(r.session.feedback) == Warning
    ensures r.effects == [Speak(CouldNotHear, 0.9, 0.9)]
    ensures r.timers == [ErrorClear] && Advance !in r.effects
  {
    CouldNotHearIsWarning();
    Step(s.(listening := false, feedback := CouldNotHear), [Speak(CouldNotHear, 0.9, 0.9)], [ErrorClear])
  }

  lemma CouldNotHearIsWarning()
    ensures Classify(CouldNotHear) == Warning
  {
    CouldNotHearWords();
  }

  lemma CouldNotHearWords()
    ensures !Contains(CouldNotHear, "Hurray") && !Contains(CouldNotHear, "Great") && !Contains(CouldNotHear, "listening")
  {
    CouldNotHearLacks("Hurray");
    CouldNotHearLacks("Great");
    CouldNotHearLacks("listening");
  }

  lemma CouldNotHearLacks(w: string)
    requires w == "Hurray" || w == "Great" || w == "listening"
    ensures !Contains(CouldNotHear, w)
  {
    if w == "listening" {
      MissingCharNotContained(CouldNotHear, w, 2);
    } else {
      MissingCharNotContained(CouldNotHear, w, 0);
    }
  }

  /** Capture ended, whatever the outcome: only the microphone flag changes. */
  function OnEnd(s: Session): Step
  {
    Step(s.(listening := false), [], [])
  }

  /** Reading the question out (on entry and on "repeat"): state is untouched. */
  function SpeakQuestion(s: Session, q: Question): Step
  {
    Step(s, [Speak(q.prompt, 1.2, 0.9)], [])
  }

  /** The question finished playing: with auto-listen, capture is scheduled; otherwise nothing happens. */
  function OnQuestionSpoken(s: Session, autoListen: bool): Step
  {
    Step(s, [], if autoListen then [ListenAfterSpeech] else [])
  }

  /**
    Once the question has been read out with auto-listen on, the timer it
    schedules starts capture: the microphone is on, the prompt is styled as
    listening and recognition is requested. With auto-listen off nothing is
    scheduled, so capture waits for the button.
   */
  lemma AutoListenStarts(s: Session)
    ensures var q := OnQuestionSpoken(s, true);
            && |q.timers| == 1
            && Fire(q.session, q.timers[0]).session.listening
            && Classify(Fire(q.session, q.timers[0]).session.feedback) == Listening
            && Fire(q.session, q.timers[0]).session.attempts == s.attempts
            && Fire(q.session, q.timers[0]).effects == [Recognize("en-US")]
    ensures OnQuestionSpoken(s, false).timers == [] && OnQuestionSpoken(s, false).session == s
  {
  }

  /**
    The recognition service ends capture after every result and every error;
    that end callback then finds the microphone already off and changes
    nothing.
   */
  lemma EndAfterResultIsNoop(s: Session, answer: string, t: string)
    ensures OnEnd(OnResult(s, answer, t).session).session == OnResult(s, answer, t).session
    ensures OnEnd(OnError(s).session).session == OnError(s).session
    ensures OnEnd(OnResult(s, answer, t).session).effects == [] && OnEnd(OnError(s).session).timers == []
  {
  }

  /** The manual "Start Listening" button is offered only while not capturing and with auto-listen off. */
  predicate ListenButtonShown(s: Session, autoListen: bool)
  {
    !s.listening && !autoListen
  }

  /** The manual button disappears while capturing and comes back when capture ends, unless auto-listen is on. */
  lemma ListenButtonFollowsCapture(s: Session, answer: string, transcript: string, autoListen: bool)
    ensures !ListenButtonShown(StartListening(s).session, autoListen)
    ensures ListenButtonShown(OnEnd(s).session, autoListen) <==> !autoListen
    ensures ListenButtonShown(OnError(s).session, autoListen) <==> !autoListen
    ensures ListenButtonShown(OnResult(s, answer, transcript).session, autoListen) <==> !autoListen
  {
  }

  // ----- The screen as an event-driven machine with a queue of pending timers -----

  datatype Event =
    | ListenClicked
    | Heard(transcript: string)
    | RecognitionFailed
    | RecognitionEnded
    | RepeatClicked
    | QuestionSpoken

  datatype Game = Game(session: Session, pending: seq<Timer>)

  datatype Outcome = Outcome(game: Game, effects: seq<Effect>)

  function Apply(g: Game, st: Step): Outcome
  {
    Outcome(Game(st.session, g.pending + st.timers), st.effects)
  }

  /** One user or speech-service event on the screen showing question `q`. */
  function Dispatch(g: Game, q: Question, autoListen: bool, e: Event): (r: Outcome)
    ensures g.pending <= r.game.pending
    ensures e == RepeatClicked ==> r.game == g && r.effects == [Speak(q.prompt, 1.2, 0.9)]
    ensures !e.Heard? ==> r.game.session.attempts == g.session.attempts
    ensures Advance !in r.effects
  {
    var s := g.session;
    match e
    case ListenClicked => Apply(g, StartListening(s))
    case Heard(t) => Apply(g, OnResult(s, q.answer, t))
    case RecognitionFailed => Apply(g, OnError(s))
    case RecognitionEnded => Apply(g, OnEnd(s))
    case RepeatClicked => Apply(g, SpeakQuestion(s, q))
    case QuestionSpoken => Apply(g, OnQuestionSpoken(s, autoListen))
  }

  /** The `i`-th pending timer elapses: it leaves the queue and runs its step. */
  function Elapse(g: Game, i: nat): (r: Outcome)
    requires i < |g.pending|
    ensures multiset(r.game.pending) + multiset{g.pending[i]} ==
            multiset(g.pending) + multiset(Fire(g.session, g.pending[i]).timers)
  {
    var rest := g.pending[..i] + g.pending[i + 1..];
    assert g.pending == g.pending[..i] + [g.pending[i]] + g.pending[i + 1..];
    Apply(Game(g.session, rest), Fire(g.session, g.pending[i]))
  }

  /**
    On the running screen: the question finishes playing with auto-listen on,
    which queues one timer behind those already pending; when that timer
    elapses, capture starts and the other pending timers stay queued.
   */
  lemma QuestionSpokenThenCapture(g: Game, q: Question)
    ensures var o := Dispatch(g, q, true, QuestionSpoken);
            && o.game.pending == g.pending + [ListenAfterSpeech]
            && o.game.session == g.session
            && var e := Elapse(o.game, |g.pending|);
               && e.game.session.listening
               && e.game.session.attempts == g.session.attempts
               && e.game.pending == g.pending
               && e.effects == [Recognize("en-US")]
  {
    var o := Dispatch(g, q, true, QuestionSpoken);
    assert o.game.pending[..|g.pending|] + o.game.pending[|g.pending| + 1..] == g.pending;
  }

  // ----- Rounds: a heard transcript followed by the timer it scheduled -----

  /**
    The sessions visited by a run of rounds, each an (expected answer,
    transcript) pair: the screen stays mounted across questions, so each round
    is judged against the answer of the question shown at that time, and each
    answer's timer fires before the next round.
   */
  function Trace(s: Session, rs: seq<(string, string)>): (r: seq<Session>)
    ensures |r| == 2 * |rs| + 1 && r[0] == s
    decreases |rs|
  {
    if rs == [] then [s]
    else
      var j := OnResult(s, rs[0].0, rs[0].1);
      [s, j.session] + Trace(Fire(j.session, j.timers[0]).session, rs[1..])
  }

  /** One round never leaves the counter above the limit, and ends strictly below it. */
  lemma RoundBounded(s: Session, answer: string, t: string)
    requires s.attempts < MaxAttempts
    ensures OnResult(s, answer, t).session.attempts <= MaxAttempts
    ensures Fire(OnResult(s, answer, t).session, OnResult(s, answer, t).timers[0]).session.attempts < MaxAttempts
  {
  }

  lemma {:induction false} TraceBounded(s: Session, rs: seq<(string, string)>)
    requires s.attempts < MaxAttempts
    ensures forall k :: 0 <= k < |Trace(s, rs)| ==> Trace(s, rs)[k].attempts <= MaxAttempts
    ensures Trace(s, rs)[|Trace(s, rs)| - 1].attempts < MaxAttempts
    decreases |rs|
  {
    if rs != [] {
      var j := OnResult(s, rs[0].0, rs[0].1);
      var next := Fire(j.session, j.timers[0]).session;
      RoundBounded(s, rs[0].0, rs[0].1);
      TraceBounded(next, rs[1..]);
    }
  }

  /** From a freshly mounted screen, the counter stays within 0..5 through any sequence of rounds. */
  lemma AttemptsStayWithinLimit(rs: seq<(string, string)>)
    ensures forall k :: 0 <= k < |Trace(Fresh, rs)| ==> 0 <= Trace(Fresh, rs)[k].attempts <= MaxAttempts
  {
    TraceBounded(Fresh, rs);
  }

  /**
    A round advances exactly when the answer is right or the limit is reached,
    and then the counter, feedback and heard answer are all back to empty;
    otherwise only the feedback and heard answer are cleared.
   */
  lemma RoundOutcome(s: Session, answer: string, t: string)
    ensures var j := OnResult(s, answer, t);
            var f := Fire(j.session, j.timers[0]);
            && (Advance in j.effects + f.effects <==> IsCorrect(t, answer) || s.attempts + 1 >= MaxAttempts)
            && (Advance in j.effects + f.effects ==> f.session == Fresh)
            && (Advance !in j.effects + f.effects ==> f.session == Fresh.(attempts := s.attempts + 1))
  {
    var j := OnResult(s, answer, t);
    var f := Fire(j.session, j.timers[0]);
    assert Advance in j.effects + f.effects <==> Advance in f.effects;
  }

  /** A recognition error followed by its clear leaves the counter and heard answer as they were and never advances. */
  lemma ErrorRoundKeepsAttempts(s: Session)
    ensures var e := OnError(s);
            var f := Fire(e.session, e.timers[0]);
            && f.session == s.(listening := false, feedback := "")
            && Advance !in e.effects + f.effects
  {
  }

  /** Repeating the question any number of times changes neither state nor pending timers. */
  lemma {:induction false} RepeatIsInert(g: Game, q: Question, autoListen: bool, n: nat)
    ensures RepeatN(g, q, autoListen, n) == g
    decreases n
  {
    if n > 0 {
      RepeatIsInert(g, q, autoListen, n - 1);
    }
  }

  function RepeatN(g: Game, q: Question, autoListen: bool, n: nat): Game
    decreases n
  {
    if n == 0 then g else Dispatch(RepeatN(g, q, autoListen, n - 1), q, autoListen, RepeatClicked).game
  }

  /** A transcript that says the expected answer in any letter case, with extra words around it, is judged correct. */
  lemma ExtraWordsStillCorrect(before: string, spoken: string, after: string, answer: string)
    requires Lower(spoken) == Lower(answer)
    ensures IsCorrect(before + spoken + after, answer)
  {
    LowerConcat(before + spoken, after);
    LowerConcat(before, spoken);
    ContainsMiddle(Lower(before), Lower(spoken), Lower(after));
  }

  /**
    With auto-listen on, nothing restarts capture after a wrong answer with
    attempts left: the retry clear only empties the feedback, schedules nothing
    and keeps the microphone off, and the manual button stays hidden. With
    auto-listen off the button is offered again.
   */
  lemma RetryWaitsForButton(s: Session, answer: string, t: string)
    requires !IsCorrect(t, answer) && s.attempts + 1 < MaxAttempts
    ensures var j := OnResult(s, answer, t);
            var f := Fire(j.session, j.timers[0]);
            && j.timers == [RetryClear]
            && !f.session.listening && f.timers == [] && f.effects == []
            && f.session.feedback == ""
            && !ListenButtonShown(f.session, true)
            && ListenButtonShown(f.session, false)
  {
  }

  /** Judging ignores letter case on both sides. */
  lemma JudgeIgnoresCase(input: string, answer: string)
    ensures IsCorrect(input, answer) == IsCorrect(Lower(input), Lower(answer))
  {
    LowerIdempotent(input);
    LowerIdempotent(answer);
  }

  /** The judge agrees with the reference definition: some position of the lowered transcript starts the lowered answer. */
  lemma JudgeIffOccurs(input: string, answer: string)
    ensures IsCorrect(input, answer) <==> exists i :: OccursAt(Lower(input), Lower(answer), i)
  {
    assert IsCorrect(input, answer) == Contains(Lower(input), Lower(answer));
    ContainsIffOccurs(Lower(input), Lower(answer));
  }

  /** A wrong transcript that itself contains "Great" is styled as a success, since styling looks only at words. */
  lemma GreatInWrongAnswerStyledSuccess(input: string, left: nat)
    requires Contains(input, "Great")
    ensures Classify(RetryMessage(input, left)) == Success
  {
    var tail := "\". Try again! You have " + ToDecimal(left) + " attempts left.";
    assert RetryMessage(input, left) == "I heard \"" + input + tail;
    ContainsWithin("I heard \"", input, tail, "Great");
  }

  /**
    The bound relies on each reveal reset firing before the next answer: with
    the manual button still offered, a wrong answer heard while the reveal's
    reset is pending pushes the counter past the limit.
   */
  lemma AnswerBeforeRevealResetExceedsLimit()
    ensures var q := Question("What animal is this?", "cat", "");
            var g0 := Game(Session(4, "", "", false), []);
            var g1 := Dispatch(g0, q, false, Heard("dog")).game;
            var g2 := Dispatch(g1, q, false, ListenClicked).game;
            var g3 := Dispatch(g2, q, false, Heard("dog")).game;
            && g1.pending == [FailReset]
            && ListenButtonShown(g1.session, false)
            && g3.session.attempts == MaxAttempts + 1
  {
    MissingCharNotContained(Lower("dog"), Lower("cat"), 0);
  }
}

=== FILE: mile_view.dfy ===
/**
  The "mile view" progress strip: one indicator per question, labelled
  `Q1`..`Qn`, each completed, current or pending relative to the current index.
 */
module MileView {

  import opened Decimal

  datatype Status = Completed | Current | Pending

  datatype Indicator = Indicator(text: string, status: Status)

  /** Status of the indicator at `index` when the game is at `current`. */
  function StatusOf(index: nat, current: int): Status
  {
    if index < current then Completed
    else if index == current then Current
    else Pending
  }

  /** The label `Q{index + 1}`. */
  function Label(index: nat): string
  {
    "Q" + ToDecimal(index + 1)
  }

  /** The first `n` indicators, in question order. */
  function Indicators(n: nat, current: int): (r: seq<Indicator>)
    ensures |r| == n
    ensures forall i :: 0 <= i < n ==> r[i].text == Label(i) && r[i].status == StatusOf(i, current)
    decreases n
  {
    if n == 0 then [] else Indicators(n - 1, current) + [Indicator(Label(n - 1), StatusOf(n - 1, current))]
  }

  /** Number of indicators with the given status. */
  function CountStatus(r: seq<Indicator>, st: Status): nat
    decreases |r|
  {
    if r == [] then 0
    else CountStatus(r[..|r| - 1], st) + (if r[|r| - 1].status == st then 1 else 0)
  }

  /** Strips whose statuses follow `StatusOf`, in any labelling. */
  predicate StatusesFollow(r: seq<Indicator>, current: int)
  {
    forall i :: 0 <= i < |r| ==> r[i].status == StatusOf(i, current)
  }

  lemma {:induction false} CurrentCountOf(r: seq<Indicator>, current: int)
    requires StatusesFollow(r, current)
    ensures CountStatus(r, Current) == if 0 <= current < |r| then 1 else 0
    decreases |r|
  {
    if r != [] {
      var p := r[..|r| - 1];
      assert StatusesFollow(p, current) by {
        assert forall i :: 0 <= i < |p| ==> p[i] == r[i];
      }
      CurrentCountOf(p, current);
    }
  }

  /** Exactly one indicator is current when the index is inside the list, none otherwise. */
  lemma {:induction false} ExactlyOneCurrent(count: nat, current: int)
    ensures CountStatus(Indicators(count, current), Current) == if 0 <= current < count then 1 else 0
  {
    CurrentCountOf(Indicators(count, current), current);
  }

  lemma {:induction false} CompletedCountOf(r: seq<Indicator>, current: int)
    requires current >= 0
    requires StatusesFollow(r, current)
    ensures CountStatus(r, Completed) == if current < |r| then current else |r|
    decreases |r|
  {
    if r != [] {
      var p := r[..|r| - 1];
      assert StatusesFollow(p, current) by {
        assert forall i :: 0 <= i < |p| ==> p[i] == r[i];
      }
      CompletedCountOf(p, current);
    }
  }

  /** The completed indicators number `min(current, count)`. */
  lemma {:induction false} CompletedCount(count: nat, current: int)
    requires current >= 0
    ensures CountStatus(Indicators(count, current), Completed) == if current < count then current else count
  {
    CompletedCountOf(Indicators(count, current), current);
  }

  /** Completed indicators form a prefix of the strip and pending ones a suffix. */
  lemma StatusOrdered(count: nat, current: int, i: nat, j: nat)
    requires i < j < count
    ensures Indicators(count, current)[j].status == Completed ==> Indicators(count, current)[i].status == Completed
    ensures Indicators(count, current)[i].status == Pending ==> Indicators(count, current)[j].status == Pending
  {
  }

  /** One indicator per question, labelled `Q1`..`Qn` with no label repeated. */
  lemma LabelsInOrder(count: nat, current: int)
    ensures |Indicators(count, current)| == count
    ensures forall i :: 0 <= i < count ==> Indicators(count, current)[i].text == "Q" + ToDecimal(i + 1)
    ensures forall i, j :: 0 <= i < j < count ==> Indicators(count, current)[i].text != Indicators(count, current)[j].text
  {
    var r := Indicators(count, current);
    forall i, j | 0 <= i < j < count
      ensures r[i].text != r[j].text
    {
      ToDecimalInjective(i + 1, j + 1);
      assert r[i].text[1..] == ToDecimal(i + 1);
      assert r[j].text[1..] == ToDecimal(j + 1);
    }
  }
}

=== FILE: options.dfy ===
/** Option type used for partial lookups (a JavaScript `undefined`). */
module Options {

  datatype Option<+T> = None | Some(value: T)
}

=== FILE: strings.dfy ===
/**
  The two string operations the quiz relies on, in the sense JavaScript gives them:
  `String.prototype.toLowerCase`, restricted here to ASCII letters, and
  `String.prototype.includes`, where the empty string is contained in every string.
 */
module Strings {

  predicate IsUpper(c: char)
  {
    'A' <= c <= 'Z'
  }

  /** Lower-cases one ASCII upper-case letter; every other character is kept. */
  function LowerChar(c: char): char
  {
    if IsUpper(c) then (c as int - 'A' as int + 'a' as int) as char else c
  }

  /** `s.toLowerCase()` over ASCII: same length, every character lowered, no upper-case letter left. */
  function Lower(s: string): (r: string)
    ensures |r| == |s|
    ensures forall i :: 0 <= i < |s| ==> r[i] == LowerChar(s[i])
    ensures forall i :: 0 <= i < |r| ==> !IsUpper(r[i])
  {
    seq(|s|, i requires 0 <= i < |s| => LowerChar(s[i]))
  }

  /** `s.includes(p)`: `p` starts at some position of `s`. */
  predicate Contains(s: string, p: string)
    decreases |s|
  {
    p <= s || (|s| > 0 && Contains(s[1..], p))
  }

  /** Reference definition of an occurrence: `p` is the slice of `s` starting at `i`. */
  predicate OccursAt(s: string, p: string, i: int)
  {
    0 <= i && i + |p| <= |s| && s[i..i + |p|] == p
  }

  /** An occurrence at any position makes `includes` true. */
  lemma {:induction false} OccursImpliesContains(s: string, p: string, i: int)
    requires OccursAt(s, p, i)
    ensures Contains(s, p)
    decreases i
  {
    if i == 0 {
      assert s[..|p|] == p;
    } else {
      assert s[1..][i - 1..i - 1 + |p|] == s[i..i + |p|];
      OccursImpliesContains(s[1..], p, i - 1);
    }
  }

  /** When `includes` is true, it names the position of an occurrence. */
  lemma {:induction false} ContainsWitness(s: string, p: string) returns (i: nat)
    requires Contains(s, p)
    ensures OccursAt(s, p, i)
    decreases |s|
  {
    if p <= s {
      i := 0;
    } else {
      var j := ContainsWitness(s[1..], p);
      assert s[j + 1..j + 1 + |p|] == s[1..][j..j + |p|];
      i := j + 1;
    }
  }

  /** `includes` agrees with the reference definition, in both directions. */
  lemma ContainsIffOccurs(s: string, p: string)
    ensures Contains(s, p) <==> exists i :: OccursAt(s, p, i)
  {
    if Contains(s, p) {
      var i := ContainsWitness(s, p);
    }
    forall i | OccursAt(s, p, i)
      ensures Contains(s, p)
    {
      OccursImpliesContains(s, p, i);
    }
  }

  /** Whatever surrounds `m`, the result still contains `m`. */
  lemma ContainsMiddle(x: string, m: string, y: string)
    ensures Contains(x + m + y, m)
  {
    var s := x + m + y;
    assert s[|x|..|x| + |m|] == m;
    assert OccursAt(s, m, |x|);
    OccursImpliesContains(s, m, |x|);
  }

  /** A string that starts with `p` contains `p`. */
  lemma ContainsPrefix(p: string, y: string)
    ensures Contains(p + y, p)
  {
    assert p <= p + y;
  }

  /** Whatever surrounds a string that contains `p`, the result contains `p` too. */
  lemma ContainsWithin(x: string, m: string, y: string, p: string)
    requires Contains(m, p)
    ensures Contains(x + m + y, p)
  {
    var i := ContainsWitness(m, p);
    var s := x + m + y;
    assert s[|x| + i..|x| + i + |p|] == m[i..i + |p|];
    OccursImpliesContains(s, p, |x| + i);
  }

  /** A string lacking one of the characters of `p` does not contain `p`. */
  lemma MissingCharNotContained(s: string, p: string, k: nat)
    requires k < |p| && p[k] !in s
    ensures !Contains(s, p)
  {
    forall i
      ensures !OccursAt(s, p, i)
    {
      if 0 <= i && i + |p| <= |s| {
        assert s[i..i + |p|][k] == s[i + k];
      }
    }
    ContainsIffOccurs(s, p);
  }

  /** Lower-casing distributes over concatenation. */
  lemma {:induction false} LowerConcat(a: string, b: string)
    ensures Lower(a + b) == Lower(a) + Lower(b)
  {
    var l := Lower(a + b);
    var r := Lower(a) + Lower(b);
    assert |l| == |r|;
    forall i | 0 <= i < |l|
      ensures l[i] == r[i]
    {
      if i < |a| {
        assert (a + b)[i] == a[i];
      } else {
        assert (a + b)[i] == b[i - |a|];
      }
    }
  }

  /** Lower-casing twice is lower-casing once. */
  lemma {:induction false} LowerIdempotent(s: string)
    ensures Lower(Lower(s)) == Lower(s)
  {
    var l := Lower(s);
    assert forall i :: 0 <= i < |l| ==> Lower(l)[i] == LowerChar(l[i]) == l[i];
  }
}
